=== FILE: README.md ===
# Kalah-style Mancala rule engine — Dafny model

This project models the `Board` class of `main.py`, the rule engine of a two-player
Mancala game played at a terminal. The board is a 14-slot bead array. Slot 0 is
player B's store, slot 7 is player A's store, slots 1–6 are A's holes and slots
8–13 are B's holes. Each hole starts with four beads and A moves first.

On a turn, the player names one of their own non-empty holes. All its beads are
picked up and sown one per slot, walking forward modulo 14. The walk passes over the
opponent's store without dropping a bead there. The turn then always passes to the
opponent. After each turn the game ends if either side's six holes are all empty.
Each side's remaining beads are then swept into its owner's store. A wins only with a
strictly larger total, so a tie goes to B.

Modules, one per part of the engine:

- `Players` (players.dfy): the two fixed players, their hole lists, their stores and the opponent lookup.
- `Boards` (boards.dfy): the board type, bead sums, the starting board and move validation.
- `Sowing` (sowing.dfy): the sowing walk, as a recursive function and as the source's `while` loop, with a closed form for sows of any length.
- `Endgame` (endgame.dfy): the end-of-game check, the final sweep and the winner.
- `Game` (game.dfy): the session state, the turn swap, one validated turn, and the round structure of the top-level loop (turn, end check, sweep).
- `Examples` (game.dfy): two worked plays on concrete boards.

The engine has no capture rule, no extra turn for ending in one's own store and no
draw result: a valid move is always followed by a swap, and equal totals make B the
winner.

## Model

| member | source | states |
|---|---|---|
| Players.Player.Holes | main.py:16-17 | Each player has six holes, the k-th being Low()+k: 1–6 for A, 8–13 for B |
| Players.Player.Store | main.py:16-17 | A player's store is one of the two store slots, 0 or 7, and never a hole (see StoresAreNotHoles) |
| Players.Player.Opponent | main.py:61-62 | The opponent is the other player, never the player itself |
| Players.HolesAreSide | main.py:16-17 | A player's hole list holds exactly the six contiguous indices of its side: 1–6 for A, 8–13 for B |
| Players.SlotsPartitioned | main.py:16-17 | Every slot 0–13 is a store or a hole, and no slot is a hole of both players |
| Players.OpponentInvolutive | main.py:61-62 | The opponent of the opponent is the player itself |
| Players.StoresAreNotHoles | main.py:16-17 | No store index appears in either player's hole list |
| Boards.CreateBoard | main.py:20-25 | The starting board has both stores at 0, four beads in every hole of both players, and 48 beads in total |
| Boards.IsValidMove | main.py:27-28 | A selection is valid exactly when it lies on the player's own side and that hole holds at least one bead; any other integer is rejected |
| Boards.ValidMoveIsOwnHole | main.py:27-28 | A valid selection is never a store and never one of the opponent's holes, whatever they hold |
| Sowing.Sow | main.py:34-41 | The sowing walk never changes the skipped slot, never lowers any slot, and adds exactly the number of beads it carries |
| Sowing.MakeMove | main.py:30-41 | A move conserves the total bead count and, for a sow of any length including ones that wrap the board several times, leaves the opponent's store unchanged |
| Sowing.MakeMoveIterative | main.py:30-41 | The source's `while` loop, which skips the opponent's store without consuming a bead, terminates and computes the same board as the recursive sow |
| Sowing.LandingBijection | main.py:34-38 | The lap order Landing/Rank is a bijection between 1..13 and the 13 slots other than the skipped store; SowClosedForm and ShortSow tie the walk to this order |
| Sowing.SowClosedForm | main.py:34-41 | After sowing n beads, each slot other than the skipped one has gained n div 13 beads, plus one if it is among the first n mod 13 slots of the lap order; the skipped slot gains nothing |
| Sowing.MakeMoveClosedForm | main.py:30-41 | The board after a move of any size: the chosen hole is emptied, then every slot gains its lap share of the beads as in SowClosedForm |
| Sowing.ShortSow | main.py:31-41 | For a valid move of fewer than 13 beads, the hole ends empty, exactly the next n slots after it (passing over the opponent's store) each gain one bead, and every other slot is unchanged |
| Endgame.CanCheckWinner | main.py:43-44 | The game can end exactly when every hole of A or every hole of B is empty |
| Endgame.GetWinner | main.py:46-47 | A wins exactly when A's holes plus store total strictly more than B's holes plus store; otherwise B wins, so ties go to B; the winner never has the smaller total |
| Endgame.TallyScore | main.py:49-55 | After the sweep every hole is empty, A's store holds A's former holes plus store, B's store holds B's former holes plus store, and no bead is lost |
| Endgame.TallyKeepsScores | main.py:49-55 | The sweep leaves each player's side-plus-store total unchanged |
| Endgame.TallyKeepsWinner | main.py:100-104 | The winner announced after the sweep is the winner the board held before it |
| Endgame.TallyIdempotent | main.py:49-55 | Sweeping an already swept board changes nothing |
| Endgame.TallyFinal | main.py:43-55 | A swept board satisfies the end-of-game check, and its two stores together hold every bead |
| Game.Start | main.py:14-18 | A new game has A to move, empty stores, four beads in every other slot, and 48 beads |
| Game.GetOpponent | main.py:61-62 | The opponent is the other player, and its store differs from the current player's store |
| Game.SwapPlayers | main.py:58-59 | Swapping leaves the board alone and hands the turn to the opponent |
| Game.SwapTwice | main.py:58-62 | Swapping twice returns the same state |
| Game.TakeTurn | main.py:70-75 | A selection is accepted exactly when it is valid; an accepted one empties the chosen hole and sows its beads, so every slot ends at its former count plus its lap share as in SowClosedForm; it conserves the beads, leaves the opponent's store alone and always passes the turn, with no extra turn |
| Game.RunningHasValidMove | main.py:67-73 | While the game runs, the player to move has at least one valid selection |
| Game.Run | main.py:96-105 | A finished session takes no more input, and a session that finishes during the run has every hole of both sides empty |
| Game.RunEndsExactlyOnEmptySide | main.py:99-101 | After an accepted turn the session stops exactly when the sown board has one side with every hole empty; otherwise play continues |
| Game.RunKeepsInvariant | main.py:96-105 | The round structure keeps 48 beads on the board; a running game has beads on both sides, and a finished one has none left in any hole |
| Game.PlayConserves | main.py:94-105 | From the start, whatever is typed, the board holds 48 beads; a running game offers a valid move, and a finished game has all 48 in the two stores |
| Examples.OpeningFromHole3 | main.py:70-73 | From the starting board, A choosing hole 3 gives [0,4,4,0,5,5,5,1,4,4,4,4,4,4] and B moves next |
| Examples.WrappingSowSkipsStore | main.py:34-41 | A 15-bead sow from B's hole 13 wraps the board, passes over A's store on the way, and refills the emptied hole on the second lap |

## Left out

- Terminal rendering (`print_board`, `_format_row`, `Player.possible_holes`): string formatting and ANSI colours with no game logic.
- Console input in `take_turn`: reading a line, `int` conversion and the `ValueError` path. A turn is modelled as one selection. A rejected selection returns `None`, which stands for the re-prompt. A malformed line is not an integer and never reaches the engine.
- The top-level loop's `os.system('clear')` calls, printing and the winner announcement text. `Game.Run` keeps only its logic: turn, end check, then sweep and stop.
- Player names. Players are the two constructors `A` and `B`, compared by value. The source compares player objects by reference, and there are exactly two of them.
- Sowing.MakeMove: takes a slot index in 0..13. Python would also accept negative indices on `self.board`, but `make_move` is only reached after `is_valid_move`, which admits indices 1–6 or 8–13.
- Capture, extra turns and draws: the code has none of them, so the model does not invent them.

=== FILE: boards.dfy ===
/** The 14-slot bead array, its construction and move validation. */
module Boards {
  import opened Players

  /** Number of slots: two sides of six holes plus two stores. */
  const Slots: nat := 14

  /** A slot index. */
  type Pos = i: int | 0 <= i < Slots

  /** Bead counts, one per slot. */
  type Board = b: seq<nat> | |b| == Slots witness seq(Slots, _ => 0)

  /** Total number of beads in a run of slots. */
  function Sum(s: seq<nat>): nat
  {
    if |s| == 0 then 0 else s[0] + Sum(s[1..])
  }

  lemma {:induction false} SumConcat(s: seq<nat>, t: seq<nat>)
    ensures Sum(s + t) == Sum(s) + Sum(t)
  {
    if |s| == 0 {
      assert s + t == t;
    } else {
      assert (s + t)[1..] == s[1..] + t;
      SumConcat(s[1..], t);
    }
  }

  /** Changing one slot changes the total by exactly the difference. */
  lemma {:induction false} SumUpdate(s: seq<nat>, i: int, v: nat)
    requires 0 <= i < |s|
    ensures Sum(s[i := v]) + s[i] == Sum(s) + v
  {
    if i > 0 {
      assert s[i := v][1..] == s[1..][i - 1 := v];
      SumUpdate(s[1..], i - 1, v);
    }
  }

  lemma {:induction false} SumConstant(n: nat, v: nat)
    ensures Sum(seq(n, _ => v)) == n * v
  {
    if n > 0 {
      assert seq(n, _ => v)[1..] == seq(n - 1, _ => v);
      SumConstant(n - 1, v);
    }
  }

  /** A sum is zero exactly when every slot in it is empty. */
  lemma {:induction false} SumZero(s: seq<nat>)
    ensures Sum(s) == 0 <==> forall k :: 0 <= k < |s| ==> s[k] == 0
  {
    if |s| > 0 {
      SumZero(s[1..]);
      assert forall k :: 1 <= k < |s| ==> s[k] == s[1..][k - 1];
    }
  }

  /** The six holes of player `p` on board `b`, in index order. */
  function Side(b: Board, p: Player): (side: seq<nat>)
    ensures |side| == 6
    ensures forall k :: 0 <= k < 6 ==> side[k] == b[p.Holes()[k]]
  {
    b[p.Low()..p.Low() + 6]
  }

  /** A board splits into B's store, A's side, A's store and B's side. */
  lemma SumBySlots(b: Board)
    ensures Sum(b) == b[B.Store()] + Sum(Side(b, A)) + b[A.Store()] + Sum(Side(b, B))
  {
    assert b == [b[0]] + Side(b, A) + [b[7]] + Side(b, B);
    SumConcat([b[0]] + Side(b, A) + [b[7]], Side(b, B));
    SumConcat([b[0]] + Side(b, A), [b[7]]);
    SumConcat([b[0]], Side(b, A));
  }

  /** The starting board: four beads in every hole, both stores empty. */
  function CreateBoard(): (b: Board)
    ensures b[A.Store()] == 0 && b[B.Store()] == 0
    ensures forall p: Player, i :: i in p.Holes() ==> b[i] == 4
    ensures Sum(b) == 48
  {
    var b := seq(Slots, _ => 4)[0 := 0][7 := 0];
    assert Side(b, A) == seq(6, _ => 4) == Side(b, B);
    SumConstant(6, 4);
    SumBySlots(b);
    b
  }

  /** A move is valid when it names one of the player's own holes and that hole is not empty.
      Any other integer, including a store or a hole of the opponent, is rejected. */
  function IsValidMove(b: Board, p: Player, position: int): (valid: bool)
    ensures valid <==> p.Low() <= position < p.Low() + 6 && b[position] > 0
  {
    HolesAreSide(p, position);
    position in p.Holes() && b[position] != 0
  }

  /** Stores and the opponent's holes are never valid moves, whatever they hold. */
  lemma ValidMoveIsOwnHole(b: Board, p: Player, position: int)
    requires IsValidMove(b, p, position)
    ensures position != A.Store() && position != B.Store()
    ensures position !in p.Opponent().Holes()
  {
    HolesAreSide(p.Opponent(), position);
  }
}

=== FILE: endgame.dfy ===
/** End of the game: detecting an empty side, sweeping the holes into the stores and
    picking the winner.  There is no draw: equal totals go to B. */
module Endgame {
  import opened Players
  import opened Boards

  /** Every hole on `p`'s side is empty. */
  predicate SideEmpty(b: Board, p: Player)
  {
    forall i :: p.Low() <= i < p.Low() + 6 ==> b[i] == 0
  }

  /** What `p` would finish with: its own side swept into its own store. */
  function Score(b: Board, p: Player): nat
  {
    Sum(Side(b, p)) + b[p.Store()]
  }

  /** The slices the engine sums are the two scores. */
  lemma SlicesAreScores(b: Board)
    ensures Sum(b[1..8]) == Score(b, A)
    ensures Sum(b[8..]) + b[0] == Score(b, B)
    ensures Sum(b[1..7]) == Sum(Side(b, A)) && Sum(b[8..]) == Sum(Side(b, B))
  {
    assert b[1..8] == Side(b, A) + [b[7]];
    SumConcat(Side(b, A), [b[7]]);
    assert b[8..] == Side(b, B);
  }

  lemma SideEmptyIffZeroSum(b: Board, p: Player)
    ensures SideEmpty(b, p) <==> Sum(Side(b, p)) == 0
  {
    SumZero(Side(b, p));
    if Sum(Side(b, p)) == 0 {
      forall i | p.Low() <= i < p.Low() + 6
        ensures b[i] == 0
      {
        assert Side(b, p)[i - p.Low()] == b[i];
      }
    }
  }

  /** The game can end once either side has no bead left in any hole. */
  function CanCheckWinner(b: Board): (over: bool)
    ensures over <==> SideEmpty(b, A) || SideEmpty(b, B)
  {
    SlicesAreScores(b);
    SideEmptyIffZeroSum(b, A);
    SideEmptyIffZeroSum(b, B);
    Sum(b[1..7]) == 0 || Sum(b[8..]) == 0
  }

  /** A wins exactly when its side plus store is strictly larger than B's; a tie goes to B. */
  function GetWinner(b: Board): (w: Player)
    ensures w == A <==> Score(b, A) > Score(b, B)
    ensures Score(b, w) >= Score(b, w.Opponent())
  {
    SlicesAreScores(b);
    if Sum(b[1..8]) > Sum(b[8..]) + b[0] then A else B
  }

  /** The final sweep: each side's holes go into its owner's store; every hole ends empty
      and no bead is lost. */
  function TallyScore(b: Board): (r: Board)
    ensures SideEmpty(r, A) && SideEmpty(r, B)
    ensures r[A.Store()] == Score(b, A) && r[B.Store()] == Score(b, B)
    ensures Sum(r) == Sum(b)
  {
    SlicesAreScores(b);
    var a := Sum(b[1..8]);
    var bs := Sum(b[8..]) + b[0];
    var r := seq(Slots, _ => 0)[7 := a][0 := bs];
    assert Side(r, A) == seq(6, _ => 0) == Side(r, B);
    SumConstant(6, 0);
    SumBySlots(r);
    SumBySlots(b);
    r
  }

  /** Sweeping does not change each player's score. */
  lemma {:induction false} TallyKeepsScores(b: Board)
    ensures Score(TallyScore(b), A) == Score(b, A)
    ensures Score(TallyScore(b), B) == Score(b, B)
  {
    var r := TallyScore(b);
    SideEmptyIffZeroSum(r, A);
    SideEmptyIffZeroSum(r, B);
  }

  /** The winner announced after the sweep is the one the board already determined. */
  lemma TallyKeepsWinner(b: Board)
    ensures GetWinner(TallyScore(b)) == GetWinner(b)
  {
    TallyKeepsScores(b);
  }

  /** Sweeping a swept board changes nothing. */
  lemma TallyIdempotent(b: Board)
    ensures TallyScore(TallyScore(b)) == TallyScore(b)
  {
    var r := TallyScore(b);
    TallyKeepsScores(r);
    var rr := TallyScore(r);
    forall i | 0 <= i < Slots
      ensures rr[i] == r[i]
    {
      if i != 0 && i != 7 {
        assert A.Low() <= i < A.Low() + 6 || B.Low() <= i < B.Low() + 6;
      }
    }
  }

  /** After the sweep the end-of-game check holds, and the two stores share every bead. */
  lemma TallyFinal(b: Board)
    ensures CanCheckWinner(TallyScore(b))
    ensures TallyScore(b)[A.Store()] + TallyScore(b)[B.Store()] == Sum(b)
  {
    var r := TallyScore(b);
    SumBySlots(r);
    SideEmptyIffZeroSum(r, A);
    SideEmptyIffZeroSum(r, B);
  }
}

=== FILE: game.dfy ===
/** The game session: a board plus whose turn it is, one validated turn at a time, and
    the round structure of play (turn, end check, sweep). */
module Game {
  import opened Players
  import opened Boards
  import opened Sowing
  import opened Endgame

  datatype Option<T> = None | Some(value: T)

  datatype State = State(board: Board, current: Player)

  /** A fresh session: the starting board, A to move. */
  function Start(): (s: State)
    ensures s.current == A
    ensures Sum(s.board) == 48
    ensures s.board[A.Store()] == 0 && s.board[B.Store()] == 0
    ensures forall i :: 0 <= i < Slots && i != A.Store() && i != B.Store() ==> s.board[i] == 4
  {
    var b := CreateBoard();
    forall i | 0 <= i < Slots && i != A.Store() && i != B.Store()
      ensures b[i] == 4
    {
      SlotsPartitioned(i);
    }
    State(b, A)
  }

  /** The player whose turn it is not. */
  function GetOpponent(s: State): (q: Player)
    ensures q != s.current
    ensures q.Store() != s.current.Store()
  {
    s.current.Opponent()
  }

  /** Hand the turn to the other player; the board is untouched. */
  function SwapPlayers(s: State): (t: State)
    ensures t.board == s.board
    ensures t.current == GetOpponent(s)
  {
    s.(current := GetOpponent(s))
  }

  /** Swapping twice gives the turn back to the same player. */
  lemma SwapTwice(s: State)
    ensures SwapPlayers(SwapPlayers(s)) == s
  {
    OpponentInvolutive(s.current);
  }

  /** One input of the turn: an invalid selection is rejected (`None`, the player is asked
      again); a valid one is sown and the turn always passes to the opponent. */
  function TakeTurn(s: State, move: int): (r: Option<State>)
    ensures r.Some? <==> IsValidMove(s.board, s.current, move)
    ensures r.Some? ==> r.value.current == GetOpponent(s)
    ensures r.Some? ==> Sum(r.value.board) == Sum(s.board)
    ensures r.Some? ==> r.value.board[GetOpponent(s).Store()] == s.board[GetOpponent(s).Store()]
    ensures r.Some? ==>
              forall j: Pos ::
                r.value.board[j]
                == (if j == move then 0 else s.board[j]) + Gain(move, GetOpponent(s).Store(), s.board[move], j)
  {
    if IsValidMove(s.board, s.current, move) then
      ValidMoveIsOwnHole(s.board, s.current, move);
      MakeMoveClosedForm(s.board, s.current, move);
      Some(SwapPlayers(State(MakeMove(s.board, s.current, move), s.current)))
    else
      None
  }

  /** A session in progress, or finished with its board swept. */
  datatype Session = Session(state: State, over: bool)

  /** Feed a sequence of inputs to the session: rejected inputs are ignored, each accepted
      turn is followed by the end check, and a finished session sweeps the board once and
      takes no more input. */
  function Run(g: Session, inputs: seq<int>): (r: Session)
    ensures g.over ==> r == g
    ensures !g.over && r.over ==> SideEmpty(r.state.board, A) && SideEmpty(r.state.board, B)
    decreases |inputs|
  {
    if g.over || |inputs| == 0 then g
    else
      match TakeTurn(g.state, inputs[0])
      case None => Run(g, inputs[1..])
      case Some(t) =>
        if CanCheckWinner(t.board) then Session(t.(board := TallyScore(t.board)), true)
        else Run(Session(t, false), inputs[1..])
  }

  /** A running session stops after an accepted turn exactly when that turn leaves one
      side with no bead in any hole; otherwise play goes on. */
  lemma RunEndsExactlyOnEmptySide(g: Session, move: int)
    requires !g.over && IsValidMove(g.state.board, g.state.current, move)
    ensures var b := MakeMove(g.state.board, g.state.current, move);
      Run(g, [move]).over <==> SideEmpty(b, A) || SideEmpty(b, B)
  {
  }

  /** The session invariant: 48 beads on the board; while the game runs neither side is
      empty, and once it is over every hole is empty, so the two stores hold all 48. */
  predicate Invariant(g: Session)
  {
    && Sum(g.state.board) == 48
    && (!g.over ==> !SideEmpty(g.state.board, A) && !SideEmpty(g.state.board, B))
    && (g.over ==> SideEmpty(g.state.board, A) && SideEmpty(g.state.board, B))
  }

  /** While the game runs, the player to move always has a valid selection, so the
      re-prompting loop of a turn can always be left. */
  lemma RunningHasValidMove(g: Session)
    requires Invariant(g) && !g.over
    ensures exists i :: IsValidMove(g.state.board, g.state.current, i)
  {
    var p := g.state.current;
    var i :| p.Low() <= i < p.Low() + 6 && g.state.board[i] != 0;
    assert IsValidMove(g.state.board, p, i);
  }

  lemma {:induction false} RunKeepsInvariant(g: Session, inputs: seq<int>)
    requires Invariant(g)
    ensures Invariant(Run(g, inputs))
    decreases |inputs|
  {
    if !g.over && |inputs| > 0 {
      match TakeTurn(g.state, inputs[0])
      case None => RunKeepsInvariant(g, inputs[1..]);
      case Some(t) =>
        if !CanCheckWinner(t.board) {
          RunKeepsInvariant(Session(t, false), inputs[1..]);
        }
    }
  }

  /** Whatever is typed, every session started from the initial board holds 48 beads, and
      a finished one has them all in the two stores. */
  lemma PlayConserves(inputs: seq<int>)
    ensures var g := Run(Session(Start(), false), inputs);
      && Sum(g.state.board) == 48
      && (g.over ==> g.state.board[A.Store()] + g.state.board[B.Store()] == 48)
      && (!g.over ==> exists i :: IsValidMove(g.state.board, g.state.current, i))
  {
    assert !SideEmpty(Start().board, A) by {
      assert Start().board[1] == 4;
    }
    assert !SideEmpty(Start().board, B) by {
      assert Start().board[8] == 4;
    }
    RunKeepsInvariant(Session(Start(), false), inputs);
    var g := Run(Session(Start(), false), inputs);
    if !g.over {
      RunningHasValidMove(g);
    } else {
      SumBySlots(g.state.board);
      SideEmptyIffZeroSum(g.state.board, A);
      SideEmptyIffZeroSum(g.state.board, B);
    }
  }
}

/** Worked plays on concrete boards. */
module Examples {
  import opened Players
  import opened Boards
  import opened Sowing
  import opened Game

  /** A opens from hole 3: holes 4, 5, 6 and A's store each gain a bead, then it is B's
      turn (no extra turn for ending in one's own store). */
  lemma OpeningFromHole3()
    ensures TakeTurn(Start(), 3) == Some(State([0, 4, 4, 0, 5, 5, 5, 1, 4, 4, 4, 4, 4, 4], B))
  {
    var b: Board := [0, 4, 4, 4, 4, 4, 4, 0, 4, 4, 4, 4, 4, 4];
    StartBoard();
    OpeningMove(b);
  }

  lemma StartBoard()
    ensures Start() == State([0, 4, 4, 4, 4, 4, 4, 0, 4, 4, 4, 4, 4, 4], A)
  {
    var b: Board := [0, 4, 4, 4, 4, 4, 4, 0, 4, 4, 4, 4, 4, 4];
    forall i | 0 <= i < Slots
      ensures Start().board[i] == b[i]
    {
    }
  }

  lemma OpeningMove(b: Board)
    requires b == [0, 4, 4, 4, 4, 4, 4, 0, 4, 4, 4, 4, 4, 4]
    ensures TakeTurn(State(b, A), 3) == Some(State([0, 4, 4, 0, 5, 5, 5, 1, 4, 4, 4, 4, 4, 4], B))
  {
    assert IsValidMove(b, A, 3);
    assert MakeMove(b, A, 3) == [0, 4, 4, 0, 5, 5, 5, 1, 4, 4, 4, 4, 4, 4] by {
      MakeMoveClosedForm(b, A, 3);
    }
  }

  /** Fifteen beads from B's hole 13 go round more than once: A's store (7) is passed
      over on every lap, and the emptied hole refills on the second lap. */
  lemma WrappingSowSkipsStore()
    ensures var b := [0, 1, 1, 1, 1, 1, 1, 5, 1, 1, 1, 1, 1, 15];
      MakeMove(b, B, 13) == [2, 3, 2, 2, 2, 2, 2, 5, 2, 2, 2, 2, 2, 1]
  {
    var b: Board := [0, 1, 1, 1, 1, 1, 1, 5, 1, 1, 1, 1, 1, 15];
    MakeMoveClosedForm(b, B, 13);
  }
}

=== FILE: players.dfy ===
/** The two fixed players of a Kalah-style Mancala board.  Slot 0 is B's store,
    slot 7 is A's store, slots 1..6 are A's holes and slots 8..13 are B's holes. */
module Players {

  datatype Player = A | B {

    /** The player's six holes, in the order they are listed at construction. */
    function Holes(): (hs: seq<int>)
      ensures |hs| == 6
      ensures forall k :: 0 <= k < 6 ==> hs[k] == Low() + k
    {
      if A? then [1, 2, 3, 4, 5, 6] else [8, 9, 10, 11, 12, 13]
    }

    /** Index of the player's store (mancala). */
    function Store(): (s: nat)
      ensures s == 0 || s == 7
    {
      if A? then 7 else 0
    }

    /** Index of the player's first hole; the side occupies [Low(), Low() + 6). */
    function Low(): nat
    {
      if A? then 1 else 8
    }

    /** The other player.  Players are compared by constructor, not by reference. */
    function Opponent(): (q: Player)
      ensures q != this
    {
      if A? then B else A
    }
  }

  /** Membership in a player's hole list is exactly the contiguous range of its side. */
  lemma HolesAreSide(p: Player, i: int)
    ensures i in p.Holes() <==> p.Low() <= i < p.Low() + 6
  {
    if i in p.Holes() {
      var k :| 0 <= k < 6 && p.Holes()[k] == i;
    }
  }

  /** The two sides and the two stores partition the 14 slots. */
  lemma SlotsPartitioned(i: int)
    requires 0 <= i < 14
    ensures i == A.Store() || i == B.Store() || i in A.Holes() || i in B.Holes()
    ensures !(i in A.Holes() && i in B.Holes())
  {
    HolesAreSide(A, i);
    HolesAreSide(B, i);
  }

  /** The opponent lookup is an involution: the opponent's opponent is the player. */
  lemma OpponentInvolutive(p: Player)
    ensures p.Opponent().Opponent() == p
  {
  }

  /** A store never belongs to a hole list, neither one's own nor the opponent's. */
  lemma StoresAreNotHoles(p: Player, q: Player)
    ensures p.Store() !in q.Holes()
  {
    HolesAreSide(q, p.Store());
  }
}

=== FILE: sowing.dfy ===
/** Sowing: the beads of the chosen hole are dropped one per slot, walking forward
    modulo 14 and skipping the opponent's store.  There is no capture and no extra
    turn in this engine. */
module Sowing {
  import opened Players
  import opened Boards

  /** The slot after `i`, wrapping from 13 back to 0. */
  function Next(i: Pos): Pos
  {
    (i + 1) % Slots
  }

  /** The sowing walk: starting just after `index`, place `beads` beads one per slot,
      passing over `skip` without placing or consuming a bead.  Every 14 consecutive
      steps skip at most one slot, so the walk ends. */
  function Sow(b: Board, index: Pos, beads: nat, skip: Pos): (r: Board)
    ensures r[skip] == b[skip]
    ensures Sum(r) == Sum(b) + beads
    ensures forall j :: 0 <= j < Slots ==> r[j] >= b[j]
    decreases beads, if Next(index) == skip then 1 else 0
  {
    if beads == 0 then b
    else
      var i := Next(index);
      if i == skip then Sow(b, i, beads, skip)
      else
        SumUpdate(b, i, b[i] + 1);
        Sow(b[i := b[i] + 1], i, beads - 1, skip)
  }

  /** `current` picks up every bead of `position` and sows them, skipping the store of
      `current`'s opponent.  Beads are only moved, never created or destroyed. */
  function MakeMove(b: Board, current: Player, position: Pos): (r: Board)
    ensures Sum(r) == Sum(b)
    ensures position != current.Opponent().Store() ==>
              r[current.Opponent().Store()] == b[current.Opponent().Store()]
  {
    SumUpdate(b, position, 0);
    Sow(b[position := 0], position, b[position], current.Opponent().Store())
  }

  /** The `while` loop of the move, statement by statement. */
  method MakeMoveIterative(b: Board, current: Player, position: Pos) returns (r: Board)
    ensures r == MakeMove(b, current, position)
  {
    var board := b;
    var beads: nat := board[position];
    board := board[position := 0];
    var index: Pos := position;
    var skip := current.Opponent().Store();
    while beads > 0
      invariant Sow(board, index, beads, skip) == MakeMove(b, current, position)
      decreases beads, if Next(index) == skip then 1 else 0
    {
      index := Next(index);
      if index == skip {
        continue;
      }
      board := board[index := board[index] + 1];
      beads := beads - 1;
    }
    r := board;
  }

  // ---------------------------------------------------------------------------
  // Closed form of a sow of any length

  /** Forward steps needed to reach `to` from `from`; a full lap (14) when they coincide. */
  function Dist(from: Pos, to: Pos): int
  {
    if to > from then to - from else to - from + Slots
  }

  /** Order (1-based) in which slot `j` receives a bead during each lap of a sow that
      starts after `from` and skips `skip`. */
  function Rank(from: Pos, skip: Pos, j: Pos): int
  {
    Dist(from, j) - (if Dist(from, skip) < Dist(from, j) then 1 else 0)
  }

  /** The `k`-th slot (1-based) to receive a bead in a lap starting after `from`. */
  function Landing(from: Pos, skip: Pos, k: int): Pos
    requires 1 <= k <= Slots - 1
  {
    var d := if Dist(from, skip) <= k then k + 1 else k;
    (from + d) % Slots
  }

  /** Beads slot `j` gains from a sow of `n` beads: one per complete lap of the 13
      receiving slots, plus one if it is among the first `n % 13` of the last lap. */
  function Gain(from: Pos, skip: Pos, n: nat, j: Pos): nat
  {
    if j == skip then 0
    else n / (Slots - 1) + (if Rank(from, skip, j) <= n % (Slots - 1) then 1 else 0)
  }

  lemma RankBounds(from: Pos, skip: Pos, j: Pos)
    requires j != skip
    ensures 1 <= Rank(from, skip, j) <= Slots - 1
  {
  }

  /** The landing order is a bijection between 1..13 and the slots other than `skip`. */
  lemma LandingBijection(from: Pos, skip: Pos)
    ensures forall k :: 1 <= k <= Slots - 1 ==>
              Landing(from, skip, k) != skip && Rank(from, skip, Landing(from, skip, k)) == k
    ensures forall j: Pos :: j != skip ==> Landing(from, skip, Rank(from, skip, j)) == j
  {
    forall j: Pos | j != skip
      ensures Landing(from, skip, Rank(from, skip, j)) == j
    {
      RankBounds(from, skip, j);
    }
  }

  /** Moving the start one slot forward lowers every other rank by one. */
  lemma RankNext(from: Pos, skip: Pos, j: Pos)
    requires Next(from) != skip && j != skip
    ensures j != Next(from) ==> Rank(Next(from), skip, j) == Rank(from, skip, j) - 1
    ensures Rank(from, skip, Next(from)) == 1
    ensures Rank(Next(from), skip, Next(from)) == Slots - 1
  {
  }

  /** Starting on the skipped slot itself leaves every rank unchanged. */
  lemma RankSkipStart(from: Pos, skip: Pos, j: Pos)
    requires Next(from) == skip && j != skip
    ensures Rank(skip, skip, j) == Rank(from, skip, j)
  {
  }

  /** One placement at rank 1 turns a sow of `n` beads into one of `n - 1` beads in
      which the same slot comes last. */
  lemma LapArithmetic(n: nat, rank: int)
    requires n >= 1 && 1 <= rank <= Slots - 1
    ensures rank == 1 ==>
              n / (Slots - 1) + (if 1 <= n % (Slots - 1) then 1 else 0) == 1 + (n - 1) / (Slots - 1)
    ensures rank >= 2 ==>
              n / (Slots - 1) + (if rank <= n % (Slots - 1) then 1 else 0)
              == (n - 1) / (Slots - 1) + (if rank - 1 <= (n - 1) % (Slots - 1) then 1 else 0)
  {
    var q, m := n / (Slots - 1), n % (Slots - 1);
    assert n == (Slots - 1) * q + m;
    if m == 0 {
      assert n - 1 == (Slots - 1) * (q - 1) + (Slots - 2);
    } else {
      assert n - 1 == (Slots - 1) * q + (m - 1);
    }
  }

  /** A sow of any length, including ones that wrap the board several times, adds to
      each slot exactly its `Gain`. */
  lemma {:induction false} SowClosedForm(b: Board, from: Pos, n: nat, skip: Pos)
    ensures forall j: Pos :: Sow(b, from, n, skip)[j] == b[j] + Gain(from, skip, n, j)
    decreases n, if Next(from) == skip then 1 else 0
  {
    if n == 0 {
    } else {
      var i := Next(from);
      if i == skip {
        SowClosedForm(b, i, n, skip);
        forall j: Pos | j != skip
          ensures Gain(from, skip, n, j) == Gain(skip, skip, n, j)
        {
          RankSkipStart(from, skip, j);
        }
      } else {
        var b' := b[i := b[i] + 1];
        SowClosedForm(b', i, n - 1, skip);
        forall j: Pos
          ensures Sow(b, from, n, skip)[j] == b[j] + Gain(from, skip, n, j)
        {
          if j == i {
            RankNext(from, skip, i);
            LapArithmetic(n, 1);
          } else if j != skip {
            RankNext(from, skip, j);
            RankBounds(from, skip, j);
            LapArithmetic(n, Rank(from, skip, j));
          }
        }
      }
    }
  }

  /** The effect of a move on every slot, for any number of beads. */
  lemma MakeMoveClosedForm(b: Board, current: Player, position: Pos)
    ensures forall j: Pos :: MakeMove(b, current, position)[j]
              == (if j == position then 0 else b[j])
                 + Gain(position, current.Opponent().Store(), b[position], j)
  {
    SowClosedForm(b[position := 0], position, b[position], current.Opponent().Store());
  }

  /** A valid move of fewer than 13 beads empties the chosen hole, adds one bead to each
      of the next `n` slots after it (passing over the opponent's store), and leaves
      every other slot alone. */
  lemma ShortSow(b: Board, current: Player, position: Pos)
    requires IsValidMove(b, current, position) && b[position] < Slots - 1
    ensures var r, n, skip := MakeMove(b, current, position), b[position], current.Opponent().Store();
      && r[position] == 0
      && (forall k :: 1 <= k <= n ==> r[Landing(position, skip, k)] == b[Landing(position, skip, k)] + 1)
      && (forall j: Pos :: j != position && (j == skip || Rank(position, skip, j) > n) ==> r[j] == b[j])
  {
    var skip := current.Opponent().Store();
    var n := b[position];
    MakeMoveClosedForm(b, current, position);
    LandingBijection(position, skip);
    ValidMoveIsOwnHole(b, current, position);
    RankBounds(position, skip, position);
  }
}
